=== FILE: README.md ===
# lars events: a Dafny model

This project models the observer library `lars`: an `Event` that keeps an
ordered list of handlers and calls them on `emit`, the subscriptions
(`Event::Observer`) whose `reset` or destruction unregisters exactly one
handler, the type-erased holder `lars::Observer`, the value cell
`ObservableValue` that emits on every `set`, and `DependentObservableValue`,
which keeps itself equal to a function of other cells.

Modules, following the two headers:

- `Wrappers` (`wrappers.dfy`): an `Option` type.
- `Registry` (`registry.dfy`): `Event::Data`, an id counter and
  an insertion-ordered list of `(id, callback)` pairs, with add, find, remove
  and clear. Callbacks are opaque tokens of a type parameter `H`.
- `Emission` (`emission.dfy`): `emit` copies the list and then calls each
  handler of the copy. What a handler does to the same registry while it runs
  is given by `react: H -> seq<Mutation<H>>`, a list of adds, removals and clears.
- `Subscriptions` (`subscriptions.dfy`): a `World` maps references to the
  registries still alive. An `Event` value is a reference. A subscription holds a
  weak reference (a `Ref` that may have left the world) plus the id it owns.
  `lars::Observer` is an `Option` of such a subscription.
- `HandlerIdWidth` (`idwidth.dfy`): the 64-bit handler-id counter as written (see Findings).
- `Observable` (`observable.dfy`): `ObservableValue<T>`, with the deliveries that
  one emission makes recorded as a list.
- `Dependent` (`dependent.dfy`): `DependentObservableValue` at arity two over
  integer cells `a`, `b` and derived `c`, for any pure `f`. The update lambda is
  the token `Update`; all other handlers are opaque.

The invariant behind the id properties is `Registry.Valid`: every stored id is
below the counter and ids increase strictly along the list. Add, remove, clear
and every emission preserve it, so ids are unique and are never reused.

The model follows the code on three points:

- `Event::Observer::observe` rebinds through the defaulted move assignment. It
  does not release the handler it owned before; that handler stays registered
  and nothing owns it any more. Only `lars::Observer::observe` releases the old
  one, and it does so after registering the new one.
- `Event::Observer` has no `bool` conversion; only `lars::Observer` has one.
- `ObservableValue::set` calls `onChange.notify(value)`
  (include/lars/observable_value.h:22), but `Event` defines no `notify`. The
  model treats that call as `emit`, the only emission `Event` has.

## Model

| member | source | states |
|---|---|---|
| Registry.Empty | include/lars/event.h:53-57 | a new registry has counter 0, no handlers, and satisfies the id invariant |
| Registry.Add | include/lars/event.h:61-65 | the handler is appended after every existing entry under the old counter value, the counter goes up by one, and the new id was not registered before |
| Registry.Find | include/lars/event.h:89 | the search finds nothing exactly when the id is absent, and otherwise returns the first position holding it |
| Registry.Remove | include/lars/event.h:86-91 | removal keeps the counter; an absent id changes nothing; on a valid registry the result is the list with that id filtered out, so every other entry stays in order, and the invariant holds |
| Registry.EraseIsWithout | include/lars/event.h:89-90 | with strictly increasing ids, erasing the first match equals filtering out every match |
| Registry.Count | include/lars/event.h:123-126 | observerCount is the length of the handler list, which on a valid registry is the number of distinct registered ids |
| Registry.Clear | include/lars/event.h:118-121 | clearing leaves no handler and the counter unchanged |
| Registry.ApplyAllPreserves | include/lars/event.h:53-65 | any run of adds, removals and clears keeps the invariant, never lowers the counter, and brings back no entry with an id issued before it started |
| Registry.AddAllDistinct | include/lars/event.h:63-64 | n registrations in a row append n entries, in order, under n consecutive ids distinct from every earlier id, and raise observerCount by n |
| Registry.RemovedStaysRemoved | include/lars/event.h:63-64 | an issued id that is no longer registered is never registered again |
| Emission.Emit | include/lars/event.h:101-108 | an emission calls exactly the handlers in the list when it starts, once each, in insertion order, whatever the handlers do to the registry; the registry stays valid |
| Emission.DispatchPreserves | include/lars/event.h:105-107 | handlers that mutate the registry while they are called keep it valid and never lower its counter |
| Emission.SnapshotLaw | include/lars/event.h:102-107 | each handler in the copy is called once; a handler registered during the emission is not called by it but stays for the next one |
| Emission.SnapshotExample | include/lars/event.h:103-107 | a handler that removes `b` and adds `c` while an emission runs leaves `a` and `c` for the next emission |
| Subscriptions.NewEvent | include/lars/event.h:98-99 | a new event gets a fresh, empty registry under the next unused reference, and the next reference moves past it |
| Subscriptions.ExpiredStaysExpired | include/lars/event.h:98-99 | a subscription whose registry has died does not come back to life when a new event is created |
| Subscriptions.DropEvent | include/lars/event.h:59 | when the last handle goes, that registry dies and no other registry changes |
| Subscriptions.CreateObserver | include/lars/event.h:110-112 | the subscription points at the event and owns the freshly appended id; other registries are unchanged |
| Subscriptions.Connect | include/lars/event.h:114-116 | connect changes the registry the same way as createObserver but returns no subscription |
| Subscriptions.ClearObservers | include/lars/event.h:118-121 | after clearing, observerCount is 0, the counter is unchanged, and no other registry changes |
| Subscriptions.ObserverCount | include/lars/event.h:123-126 | observerCount of an event is the length of its handler list, and on a valid registry the number of distinct registered ids |
| Subscriptions.EmitEvent | include/lars/event.h:101-108 | the event's handlers as of the call are called, observerCount of them; with handlers that act only on this event, only that event's registry changes and the reference allocator is left alone |
| Subscriptions.Unbound | include/lars/event.h:73 | a default subscription has an empty weak reference |
| Subscriptions.Reset | include/lars/event.h:86-93 | the subscription always ends empty; a dead registry or an absent id means no change; otherwise only the owned id leaves its registry, in order |
| Subscriptions.Move | include/lars/event.h:76 | the move constructor leaves the moved-from subscription with an empty weak reference |
| Subscriptions.Observe | include/lars/event.h:82-84 | observe changes the world exactly as createObserver on the given event does and ends holding the subscription it returns, which owns the newly issued id |
| Subscriptions.IsBound | include/lars/event.h:34 | the type-erased observer converts to true exactly when it holds a subscription |
| Subscriptions.Release | include/lars/event.h:95 | deleting the held subscription runs its destructor, which resets it; holding nothing changes nothing |
| Subscriptions.ErasedEmpty | include/lars/event.h:17 | a default type-erased observer converts to false |
| Subscriptions.Wrap | include/lars/event.h:19 | wrapping holds the subscription and empties the argument |
| Subscriptions.ErasedReset | include/lars/event.h:33 | reset leaves the type-erased observer converting to false |
| Subscriptions.ErasedAssign | include/lars/event.h:24-27 | assigning a subscription stores it, releases the old one and empties the argument |
| Subscriptions.ErasedObserve | include/lars/event.h:29-31 | the type-erased observer ends up holding a subscription to the given event |
| Subscriptions.ErasedMoveAssign | include/lars/event.h:22 | move assignment takes the source's subscription and leaves the source empty |
| Subscriptions.ResetIdempotent | include/lars/event.h:86-93 | a second reset changes nothing |
| Subscriptions.ResetKeepsOthers | include/lars/event.h:89-90 | resetting one subscription never unregisters another subscription's handler |
| Subscriptions.MovedFromIsInert | include/lars/event.h:83 | destroying a moved-from subscription changes no registry |
| Subscriptions.ObserveKeepsPrevious | include/lars/event.h:80-84 | Event::Observer::observe leaves the previously owned handler registered and registers a new, different id |
| Subscriptions.ErasedObserveReplaces | include/lars/event.h:29-31 | lars::Observer::observe unregisters the previously held handler and registers a new id |
| Subscriptions.ErasedReleaseUnregisters | include/lars/event.h:22-33 | reset, assigning another subscription, and move assignment all unregister the held handler and touch no other registry |
| Subscriptions.ResetAllKeeps | include/lars/event.h:86-91 | resetting any run of subscriptions that do not own an id keeps that id registered |
| Subscriptions.ConnectOnlyClearRemoves | include/lars/event.h:114-121 | no earlier subscription can unregister a connected handler, but clearObservers does |
| HandlerIdWidth.AddWrapping | include/lars/event.h:61-65 | addHandler with a size_t counter appends under the old counter, raises the counter by one below 2^64-1 and wraps it from 2^64-1 to 0 |
| HandlerIdWidth.WrappingReusesId | include/lars/event.h:64 | after the wrap a registration gets an id that is still registered, the invariant fails, and a reset removes the wrong handler |
| Observable.Make | include/lars/observable_value.h:17-18 | a new cell holds the initial value and its onChange has no handlers |
| Observable.Get | include/lars/observable_value.h:25-27 | get returns the stored value and leaves the cell as it was |
| Observable.SetGetRoundTrip | include/lars/observable_value.h:20-27 | setting the value get returns leaves the cell unchanged, and get after set(x) returns x |
| Observable.Deliver | include/lars/observable_value.h:22 | an emission makes one call per snapshot handler, in order, each with the emitted value |
| Observable.Set | include/lars/observable_value.h:20-23 | after set(x), get returns x; each handler in the snapshot receives the stored value exactly once, in order; with handlers that leave onChange alone, the handler list is unchanged |
| Observable.Listen | include/lars/observable_value.h:15 | subscribing to onChange keeps the value and adds one handler under a fresh id |
| Observable.Unlisten | include/lars/observable_value.h:15 | unsubscribing keeps the value and removes exactly that id |
| Observable.GetAfterSet | include/lars/observable_value.h:17-27 | get returns the constructed value, and after any run of sets returns the last value set |
| Observable.SetAllLast | include/lars/observable_value.h:20-27 | after a run of sets, get returns the last value; with handlers that leave onChange alone, the handlers are unchanged |
| Dependent.Construct | include/lars/observable_value.h:47-53 | the derived value starts at f of the dependencies' current values, with one added subscription per dependency and the old handlers kept in front |
| Dependent.Propagate | include/lars/observable_value.h:51 | each update lambda in the snapshot sets c to f of the current a and b, and c then emits that value to each of its handlers once per recomputation |
| Dependent.SetCell | include/lars/observable_value.h:20-23 | setting any cell stores the value and notifies its snapshot once; on a well-formed value, setting a dependency recomputes c exactly once, and c then emits once and equals f of both current values |
| Dependent.ListenOn | include/lars/observable_value.h:15 | a client subscription adds one handler and keeps the derived value's invariant |
| Dependent.UnlistenOn | include/lars/observable_value.h:15 | removing a client subscription keeps the derived value's invariant |
| Dependent.ClearOn | include/lars/event.h:118-121 | a client clearing the public onChange of a dependency removes the update lambda with every other handler and breaks the derived value's invariant; clearing c keeps it |
| Dependent.Destroy | include/lars/observable_value.h:43 | destroying the derived value resets each owned subscription: the owned id is filtered out of each dependency, and a dependency no longer holding it is untouched; on a well-formed value this removes exactly one handler per dependency, so later sets recompute nothing |
| Dependent.DestroyAfterClear | include/lars/observable_value.h:43 | after a client cleared a's handlers, destruction leaves a empty and still removes the update lambda from b |
| Dependent.OwnedCountsOnce | include/lars/observable_value.h:52 | an update lambda registered under a single id runs exactly once per emission |
| Dependent.SubscribeOwns | include/lars/observable_value.h:52 | subscribing the new update lambda makes it the only one on that dependency |
| Dependent.RemoveOwnerLeavesNone | include/lars/observable_value.h:43 | resetting the derived value's subscription removes its lambda and lowers observerCount by one |
| Dependent.DependencySetsKeepConsistent | include/lars/observable_value.h:50-52 | after any run of dependency sets, c equals f of the current dependency values |
| Dependent.ClearedDependencyGoesStale | include/lars/observable_value.h:20-23 | after a dependency's onChange is cleared, setting it recomputes nothing and c keeps its old value |
| Dependent.ClearedSumIsStale | include/lars/observable_value.h:47-52 | with c = a + b from 2 and 3, clearing a's handlers and setting a to 10 leaves c at 5, inconsistent with 13 |
| Dependent.SumExample | include/lars/observable_value.h:47-52 | with c = a + b from 2 and 3, c is 5, then 13 after a.set(10), then 10 after b.set(0), with one recomputation each time |

## Left out

- The `std::mutex` and thread safety (include/lars/event.h:56, 62, 102-104): each operation is one atomic step. Concurrent registrations are covered only as some sequential order of them (`Registry.AddAllDistinct`).
- What handler bodies compute. They are opaque tokens. In `Emission`, their effect on the emitting registry is a list of mutations. In `Dependent`, only the update lambda has an effect.
- Handler exceptions that abort an emission: the model has no exceptional control flow.
- Reference counting beyond "alive or not". `DropEvent` is the moment the last owning handle goes.
- Variadic templates, deduction guides (include/lars/observable_value.h:39, 57-60), `operator*`, `operator->` and forwarding constructors. `DependentObservableValue` is modelled at arity two over `int`, with `T(args...)` taken to be the value itself.
- A dependency destroyed before the derived value. The source keeps dangling `&deps` references, which is a memory-safety matter, not behaviour.
- The same cell passed as both dependencies. That registers the lambda twice on one event.
- `Dependent.Construct`: the lambda must not already be registered on the dependencies. The source meets this trivially because the lambda is created inside the constructor.
- `Dependent.UnlistenOn`: the id must not be one the derived value owns. The derived value keeps those subscriptions private; a client reaches their ids only by editing the public `id` of its own `Event::Observer` (include/lars/event.h:71) or by building one with the public constructor (include/lars/event.h:74), which the model does not cover.
- `Dependent.SetCell`: when `c` itself is set, `c`'s value is promised to be `x` only if no update lambda sits on `c` (always so under `WellFormed`).
- `Observable.Set`: the handlers of a value cell only receive the value; they are not modelled as registering or unregistering on that cell's `onChange` while it emits, which is why `onChange` comes out unchanged. Such mutations during an emission are modelled, for a single event, by `Emission`.
- `Dependent.DependencySetsKeepConsistent`: the derived value stays consistent only while no client clears a dependency's public `onChange`; `Dependent.ClearOn` and `Dependent.ClearedDependencyGoesStale` state what happens when one does.
- `Subscriptions.EmitEvent`: the handlers it runs act only on the emitted event, so the frame on every other registry and on the reference allocator comes from that restriction. A handler in the source may also connect to, create or clear another `Event` while it is called (include/lars/event.h:106); that is not modelled here.
- `Emission.Emit`: handlers can mutate only the registry being emitted. Their effect on other events is left to the `Dependent` cascade.

## Findings

| source | as written | input that shows it | evidently intended | confidence | as-written member | corrected member |
|---|---|---|---|---|---|---|
| include/lars/event.h:64 | `IDCounter++` on a `size_t` wraps to 0 after 2^64 registrations, so an id still registered is handed out again | a registry whose counter is 2^64-1 and which still holds id 0 receives two more registrations; the second gets id 0, and resetting it removes the older handler | ids are unique and never reused | not executed; needs 2^64 registrations on one event where `size_t` is 64 bits, but only 2^32 where it is 32 bits | HandlerIdWidth.WrappingReusesId | Registry.Add |

=== FILE: dependent.dfy ===
/**
  `DependentObservableValue`, at a fixed arity of two: integer cells `a` and `b`
  and a derived cell `c` kept equal to `f(a, b)` for an arbitrary pure `f`.

  The derived value subscribes once to each dependency's `onChange`. The
  registered lambda ignores the value it is given, re-reads both dependencies and
  calls `set` on `c`, which emits on `c`'s own `onChange`. Every other handler on
  the three events is some client's opaque callback.
 */
module Dependent {
  import opened Registry
  import opened Observable

  /** Callback tokens: the derived value's update lambda, or anything else. */
  datatype Handler = Update | Opaque(tag: nat)

  type Cell = Observable<int, Handler>

  datatype Which = A | B | C

  /** The two dependencies, the derived cell, and the ids owned by the tuple of
      subscriptions the derived value keeps (one on `a`, one on `b`). */
  datatype DependentValue = DependentValue(a: Cell, b: Cell, c: Cell, owned: (HandlerId, HandlerId))

  /** What one `set` caused: the calls made by the cell's own emission, how many
      times the update lambda ran, and the calls made by `c`'s emissions. */
  datatype Trace = Trace(notified: seq<Delivery<Handler, int>>, recomputations: nat,
                         derived: seq<Delivery<Handler, int>>)

  function CellOf(s: DependentValue, which: Which): Cell {
    match which
    case A => s.a
    case B => s.b
    case C => s.c
  }

  function WithCell(s: DependentValue, which: Which, cell: Cell): DependentValue {
    match which
    case A => s.(a := cell)
    case B => s.(b := cell)
    case C => s.(c := cell)
  }

  /** The number of update lambdas in a handler list. */
  function Updates(hs: seq<StoredHandler<Handler>>): nat {
    if hs == [] then 0 else (if hs[0].callback == Update then 1 else 0) + Updates(hs[1..])
  }

  predicate NoUpdate(cell: Cell) {
    forall i :: 0 <= i < |cell.onChange.observers| ==> cell.onChange.observers[i].callback != Update
  }

  /** The update lambda is registered on `cell` under `id`, and nowhere else there. */
  predicate Owns(cell: Cell, id: HandlerId) {
    && Valid(cell.onChange)
    && id in Ids(cell.onChange.observers)
    && forall i :: 0 <= i < |cell.onChange.observers| ==>
         (cell.onChange.observers[i].callback == Update <==> cell.onChange.observers[i].id == id)
  }

  /** The structural invariant: one live subscription per dependency, none on `c`. */
  predicate WellFormed(s: DependentValue) {
    Owns(s.a, s.owned.0) && Owns(s.b, s.owned.1) && Valid(s.c.onChange) && NoUpdate(s.c)
  }

  /** The derived value agrees with the current values of its dependencies. */
  predicate Consistent(s: DependentValue, f: (int, int) -> int) {
    Get(s.c) == f(Get(s.a), Get(s.b))
  }

  /** The constructor: compute `f(a, b)` eagerly, then subscribe the update lambda
      to `a` and to `b`. The lambda is created here, so neither dependency holds
      it yet. */
  function Construct(f: (int, int) -> int, a: Cell, b: Cell): (s: DependentValue)
    requires Valid(a.onChange) && Valid(b.onChange)
    requires NoUpdate(a) && NoUpdate(b)
    ensures WellFormed(s) && Consistent(s, f)
    ensures Get(s.c) == f(Get(a), Get(b))
    ensures Get(s.a) == Get(a) && Get(s.b) == Get(b)
    ensures Count(s.a.onChange) == Count(a.onChange) + 1
    ensures Count(s.b.onChange) == Count(b.onChange) + 1
    ensures s.a.onChange.observers[..Count(a.onChange)] == a.onChange.observers
    ensures s.b.onChange.observers[..Count(b.onChange)] == b.onChange.observers
    ensures Count(s.c.onChange) == 0
  {
    var c := Make(f(Get(a), Get(b)));
    var (a', idA) := Listen(a, Update);
    var (b', idB) := Listen(b, Update);
    SubscribeOwns(a, Update);
    SubscribeOwns(b, Update);
    DependentValue(a', b', c, (idA, idB))
  }

  /** Run the handlers of one emission's snapshot `hs`: each update lambda re-reads
      both dependencies and sets `c`; any other handler leaves the cells alone. */
  function Propagate(s: DependentValue, f: (int, int) -> int, hs: seq<StoredHandler<Handler>>)
    : (r: (DependentValue, nat, seq<Delivery<Handler, int>>))
    ensures r.0.a == s.a && r.0.b == s.b && r.0.owned == s.owned
    ensures r.0.c.onChange == s.c.onChange
    ensures r.1 == Updates(hs)
    ensures r.1 == 0 ==> r.0 == s && r.2 == []
    ensures r.1 > 0 ==> Consistent(r.0, f)
    ensures forall i :: 0 <= i < |r.2| ==> r.2[i].arg == f(Get(s.a), Get(s.b))
    ensures r.1 == 1 ==> r.2 == Deliver(s.c.onChange.observers, f(Get(s.a), Get(s.b)))
    ensures |r.2| == r.1 * |s.c.onChange.observers|
    decreases |hs|
  {
    if hs == [] then (s, 0, [])
    else
      var (s1, n1, out1) :=
        if hs[0].callback == Update then
          var (c', cds) := Set(s.c, f(Get(s.a), Get(s.b)));
          (s.(c := c'), 1, cds)
        else (s, 0, []);
      var (s2, n2, out2) := Propagate(s1, f, hs[1..]);
      (s2, n1 + n2, out1 + out2)
  }

  /** `set(x)` on one of the three cells: store and emit on that cell, running the
      update lambda wherever it sits in the snapshot. */
  function SetCell(s: DependentValue, f: (int, int) -> int, which: Which, x: int): (r: (DependentValue, Trace))
    ensures which != C || r.1.recomputations == 0 ==> Get(CellOf(r.0, which)) == x
    ensures which != A ==> Get(r.0.a) == Get(s.a)
    ensures which != B ==> Get(r.0.b) == Get(s.b)
    ensures r.1.notified == Deliver(CellOf(s, which).onChange.observers, x)
    ensures r.1.recomputations == Updates(CellOf(s, which).onChange.observers)
    ensures WellFormed(s) ==> WellFormed(r.0)
    ensures WellFormed(s) && which != C ==>
      && Consistent(r.0, f)
      && r.1.recomputations == 1
      && r.1.derived == Deliver(s.c.onChange.observers, Get(r.0.c))
    ensures WellFormed(s) && which == C ==> r.1.recomputations == 0 && r.1.derived == []
  {
    var cell := CellOf(s, which);
    var (cell', ds) := Set(cell, x);
    var s1 := WithCell(s, which, cell');
    var (s2, n, cds) := Propagate(s1, f, cell.onChange.observers);
    if WellFormed(s) && which != C then
      OwnedCountsOnce(cell.onChange.observers, if which == A then s.owned.0 else s.owned.1);
      (s2, Trace(ds, n, cds))
    else if WellFormed(s) then
      NoUpdateCountsNone(cell.onChange.observers);
      (s2, Trace(ds, n, cds))
    else
      (s2, Trace(ds, n, cds))
  }

  /** A client subscribes an opaque handler to one of the three cells. */
  function ListenOn(s: DependentValue, which: Which, tag: nat): (r: (DependentValue, HandlerId))
    ensures Get(r.0.a) == Get(s.a) && Get(r.0.b) == Get(s.b) && Get(r.0.c) == Get(s.c)
    ensures Count(CellOf(r.0, which).onChange) == Count(CellOf(s, which).onChange) + 1
    ensures WellFormed(s) ==> WellFormed(r.0)
  {
    var cell := CellOf(s, which);
    var (cell', id) := Listen(cell, Opaque(tag));
    AddOpaqueKeeps(cell, tag, s.owned.0);
    AddOpaqueKeeps(cell, tag, s.owned.1);
    (WithCell(s, which, cell'), id)
  }

  /** A client resets its own subscription on one of the three cells. Its id was
      handed out to it alone, so it is never one the derived value owns. */
  function UnlistenOn(s: DependentValue, which: Which, id: HandlerId): (r: DependentValue)
    requires which == A ==> id != s.owned.0
    requires which == B ==> id != s.owned.1
    ensures Get(r.a) == Get(s.a) && Get(r.b) == Get(s.b) && Get(r.c) == Get(s.c)
    ensures WellFormed(s) ==> WellFormed(r)
  {
    var cell := CellOf(s, which);
    RemoveKeeps(cell, id, if which == A then s.owned.0 else s.owned.1);
    WithCell(s, which, Unlisten(cell, id))
  }

  /** A client calls `clearObservers()` on the public `onChange` of one cell. On a
      dependency this also removes the derived value's update lambda, which breaks
      the invariant; on `c` it keeps it. */
  function ClearOn(s: DependentValue, which: Which): (r: DependentValue)
    ensures Get(r.a) == Get(s.a) && Get(r.b) == Get(s.b) && Get(r.c) == Get(s.c)
    ensures Count(CellOf(r, which).onChange) == 0
    ensures CellOf(r, which).onChange.idCounter == CellOf(s, which).onChange.idCounter
    ensures forall other :: other != which ==> CellOf(r, other) == CellOf(s, other)
    ensures Updates(CellOf(r, which).onChange.observers) == 0
    ensures which != C ==> !WellFormed(r)
    ensures which == C && WellFormed(s) ==> WellFormed(r)
  {
    var cell := CellOf(s, which);
    WithCell(s, which, cell.(onChange := Clear(cell.onChange)))
  }

  /** The derived value is destroyed: its subscriptions reset, which removes the
      update lambda from both dependencies. */
  function Destroy(s: DependentValue): (r: (Cell, Cell))
    ensures Get(r.0) == Get(s.a) && Get(r.1) == Get(s.b)
    ensures Valid(s.a.onChange) ==> r.0.onChange.observers == Without(s.a.onChange.observers, s.owned.0)
    ensures Valid(s.b.onChange) ==> r.1.onChange.observers == Without(s.b.onChange.observers, s.owned.1)
    ensures s.owned.0 !in Ids(s.a.onChange.observers) ==> r.0 == s.a
    ensures s.owned.1 !in Ids(s.b.onChange.observers) ==> r.1 == s.b
    ensures WellFormed(s) ==>
      && Count(r.0.onChange) == Count(s.a.onChange) - 1
      && Count(r.1.onChange) == Count(s.b.onChange) - 1
      && NoUpdate(r.0) && NoUpdate(r.1)
      && Updates(r.0.onChange.observers) == 0 && Updates(r.1.onChange.observers) == 0
  {
    var a' := Unlisten(s.a, s.owned.0);
    var b' := Unlisten(s.b, s.owned.1);
    if WellFormed(s) then
      RemoveOwnerLeavesNone(s.a, s.owned.0);
      RemoveOwnerLeavesNone(s.b, s.owned.1);
      NoUpdateCountsNone(a'.onChange.observers);
      NoUpdateCountsNone(b'.onChange.observers);
      (a', b')
    else
      (a', b')
  }

  // ---------------------------------------------------------------- lemmas

  /** Once a client has cleared a dependency's `onChange`, setting that dependency
      stores the value and recomputes nothing: `c` keeps its old value, so it is
      consistent afterwards only if `f` happens to agree with it. */
  lemma ClearedDependencyGoesStale(s: DependentValue, f: (int, int) -> int, which: Which, x: int)
    requires which != C
    ensures var r := SetCell(ClearOn(s, which), f, which, x);
      && r.1.recomputations == 0
      && r.1.derived == []
      && Get(CellOf(r.0, which)) == x
      && r.0.c == s.c
      && (Consistent(r.0, f) <==> Get(s.c) == f(Get(r.0.a), Get(r.0.b)))
  {
  }

  /** Destroying the derived value after a client cleared `a`'s handlers: the
      reset on `a` finds nothing to remove, and the one on `b` still removes the
      update lambda. */
  lemma DestroyAfterClear(s: DependentValue)
    requires WellFormed(s)
    ensures var r := Destroy(ClearOn(s, A));
      && Count(r.0.onChange) == 0
      && Count(r.1.onChange) == Count(s.b.onChange) - 1
      && Updates(r.1.onChange.observers) == 0
      && Get(r.0) == Get(s.a) && Get(r.1) == Get(s.b)
  {
    RemoveOwnerLeavesNone(s.b, s.owned.1);
    NoUpdateCountsNone(Unlisten(s.b, s.owned.1).onChange.observers);
  }

  /** With c = a + b, clearing `a`'s handlers and then setting `a` leaves `c` stale. */
  lemma ClearedSumIsStale(f: (int, int) -> int)
    requires forall x, y :: f(x, y) == x + y
    ensures var s := Construct(f, Make(2), Make(3));
      var r := SetCell(ClearOn(s, A), f, A, 10);
      && Get(r.0.c) == 5 && Get(r.0.a) == 10 && Get(r.0.b) == 3
      && !Consistent(r.0, f)
  {
    var s := Construct(f, Make(2), Make(3));
    ClearedDependencyGoesStale(s, f, A, 10);
  }

  /** With the update lambda registered under exactly one id, an emission runs it
      exactly once. */
  lemma {:induction false} OwnedCountsOnce(hs: seq<StoredHandler<Handler>>, id: HandlerId)
    requires StrictlyIncreasing(hs) && id in Ids(hs)
    requires forall i :: 0 <= i < |hs| ==> (hs[i].callback == Update <==> hs[i].id == id)
    ensures Updates(hs) == 1
    decreases |hs|
  {
    IdsCons(hs);
    if hs[0].id == id {
      forall i | 0 <= i < |hs[1..]| ensures hs[1..][i].callback != Update {
        assert hs[1..][i] == hs[i + 1];
      }
      NoUpdateCountsNone(hs[1..]);
    } else {
      forall i | 0 <= i < |hs[1..]|
        ensures hs[1..][i].callback == Update <==> hs[1..][i].id == id
      {
        assert hs[1..][i] == hs[i + 1];
      }
      OwnedCountsOnce(hs[1..], id);
    }
  }

  lemma {:induction false} NoUpdateCountsNone(hs: seq<StoredHandler<Handler>>)
    requires forall i :: 0 <= i < |hs| ==> hs[i].callback != Update
    ensures Updates(hs) == 0
    decreases |hs|
  {
    if hs != [] {
      forall i | 0 <= i < |hs[1..]| ensures hs[1..][i].callback != Update {
        assert hs[1..][i] == hs[i + 1];
      }
      NoUpdateCountsNone(hs[1..]);
    }
  }

  /** Subscribing the update lambda to a cell that does not hold it makes the cell
      owned under the fresh id. */
  lemma SubscribeOwns(cell: Cell, h: Handler)
    requires Valid(cell.onChange) && NoUpdate(cell) && h == Update
    ensures Owns(Listen(cell, h).0, Listen(cell, h).1)
  {
    var (cell', id) := Listen(cell, h);
    var n := |cell.onChange.observers|;
    forall i | 0 <= i < |cell'.onChange.observers|
      ensures cell'.onChange.observers[i].callback == Update <==> cell'.onChange.observers[i].id == id
    {
      if i < n {
        assert cell'.onChange.observers[i] == cell'.onChange.observers[..n][i];
      }
    }
  }

  /** Subscribing an opaque handler keeps whatever the cell already owned. */
  lemma AddOpaqueKeeps(cell: Cell, tag: nat, id: HandlerId)
    ensures Owns(cell, id) ==> Owns(Listen(cell, Opaque(tag)).0, id)
    ensures NoUpdate(cell) ==> NoUpdate(Listen(cell, Opaque(tag)).0)
  {
    var (cell', fid) := Listen(cell, Opaque(tag));
    var n := |cell.onChange.observers|;
    forall i | 0 <= i < n ensures cell'.onChange.observers[i] == cell.onChange.observers[i] {
      assert cell'.onChange.observers[i] == cell'.onChange.observers[..n][i];
    }
    if Owns(cell, id) {
      assert fid != id;
    }
  }

  /** Removing an id other than the owned one keeps the ownership. */
  lemma RemoveKeeps(cell: Cell, removed: HandlerId, id: HandlerId)
    ensures removed != id && Owns(cell, id) ==> Owns(Unlisten(cell, removed), id)
    ensures NoUpdate(cell) ==> NoUpdate(Unlisten(cell, removed))
    ensures Valid(cell.onChange) ==> Valid(Unlisten(cell, removed).onChange)
  {
    var obs := cell.onChange.observers;
    var left := Unlisten(cell, removed).onChange.observers;
    RemoveDropsOnly(cell.onChange, removed);
    forall j | 0 <= j < |left| ensures exists i :: 0 <= i < |obs| && obs[i] == left[j] {
      assert left[j] in obs;
    }
    if Valid(cell.onChange) {
      WithoutValid(obs, removed, cell.onChange.idCounter);
    }
  }

  /** Removing the owned id leaves no update lambda behind. */
  lemma RemoveOwnerLeavesNone(cell: Cell, id: HandlerId)
    requires Owns(cell, id)
    ensures NoUpdate(Unlisten(cell, id))
    ensures Count(Unlisten(cell, id).onChange) == Count(cell.onChange) - 1
  {
    var obs := cell.onChange.observers;
    WithoutValid(obs, id, cell.onChange.idCounter);
    var rest := Without(obs, id);
    WithoutIds(obs, id);
    forall i | 0 <= i < |rest| ensures rest[i].callback != Update {
      assert rest[i].id in Ids(rest);
      var j :| 0 <= j < |obs| && obs[j] == rest[i];
    }
  }

  /** The cells after a run of `set` calls, one after the other. */
  function RunSets(s: DependentValue, f: (int, int) -> int, ops: seq<(Which, int)>): DependentValue
    decreases |ops|
  {
    if ops == [] then s else RunSets(SetCell(s, f, ops[0].0, ops[0].1).0, f, ops[1..])
  }

  /** However many times the dependencies are set, the derived value equals `f`
      of their current values. */
  lemma {:induction false} DependencySetsKeepConsistent(s: DependentValue, f: (int, int) -> int, ops: seq<(Which, int)>)
    requires WellFormed(s) && Consistent(s, f)
    requires forall i :: 0 <= i < |ops| ==> ops[i].0 != C
    ensures WellFormed(RunSets(s, f, ops)) && Consistent(RunSets(s, f, ops), f)
    decreases |ops|
  {
    if ops != [] {
      var s1 := SetCell(s, f, ops[0].0, ops[0].1).0;
      forall i | 0 <= i < |ops[1..]| ensures ops[1..][i].0 != C {
        assert ops[1..][i] == ops[i + 1];
      }
      DependencySetsKeepConsistent(s1, f, ops[1..]);
    }
  }

  /** The worked example: `a = 2`, `b = 3`, `c = a + b`. Initially `c` is 5; after
      `a.set(10)` it is 13, with one recomputation; after `b.set(0)` it is 10. */
  lemma SumExample(f: (int, int) -> int)
    requires forall x, y :: f(x, y) == x + y
    ensures var s0 := Construct(f, Make(2), Make(3));
      var (s1, t1) := SetCell(s0, f, A, 10);
      var (s2, t2) := SetCell(s1, f, B, 0);
      && Get(s0.c) == 5
      && Get(s1.c) == 13 && t1.recomputations == 1
      && Get(s2.c) == 10 && t2.recomputations == 1
  {
    var a: Cell := Make(2);
    var b: Cell := Make(3);
    var s0 := Construct(f, a, b);
    assert Get(s0.a) == 2 && Get(s0.b) == 3;
    var (s1, t1) := SetCell(s0, f, A, 10);
    assert Get(s1.a) == 10 && Get(s1.b) == 3;
    var (s2, t2) := SetCell(s1, f, B, 0);
    assert Get(s2.a) == 10 && Get(s2.b) == 0;
  }
}

=== FILE: emission.dfy ===
/**
  `Event::emit`: copy the handler list, then call every handler of the copy in
  order. A handler's body is opaque; what it may do to the same registry while it
  runs (register, unregister, clear) is given by `react`, a map from callback
  token to the registry mutations that handler performs.
 */
module Emission {
  import opened Registry

  /** The registry after the handlers `hs` have run, in order, starting from `d`. */
  function Dispatch<H>(d: Data<H>, hs: seq<StoredHandler<H>>, react: H -> seq<Mutation<H>>): Data<H>
    decreases |hs|
  {
    if hs == [] then d
    else ApplyAll(Dispatch(d, hs[..|hs| - 1], react), react(hs[|hs| - 1].callback))
  }

  /** One emission. `calls` lists the handlers invoked, in invocation order;
      `after` is the registry once the last of them has returned. */
  method Emit<H>(d: Data<H>, react: H -> seq<Mutation<H>>)
    returns (calls: seq<StoredHandler<H>>, after: Data<H>)
    ensures calls == d.observers
    ensures after == Dispatch(d, d.observers, react)
    ensures Valid(d) ==> Valid(after) && after.idCounter >= d.idCounter
  {
    var snapshot := d.observers;
    calls := [];
    after := d;
    var i := 0;
    while i < |snapshot|
      invariant 0 <= i <= |snapshot|
      invariant calls == snapshot[..i]
      invariant after == Dispatch(d, snapshot[..i], react)
    {
      assert snapshot[..i + 1][..i] == snapshot[..i];
      calls := calls + [snapshot[i]];
      after := ApplyAll(after, react(snapshot[i].callback));
      i := i + 1;
    }
    assert snapshot[..i] == snapshot;
    if Valid(d) {
      DispatchPreserves(d, snapshot, react);
    }
  }

  /** Running handlers keeps the registry invariant, never lowers the counter, and
      leaves no entry with an old id that was not there before the emission. */
  lemma {:induction false} DispatchPreserves<H>(d: Data<H>, hs: seq<StoredHandler<H>>, react: H -> seq<Mutation<H>>)
    requires Valid(d)
    ensures Valid(Dispatch(d, hs, react))
    ensures Dispatch(d, hs, react).idCounter >= d.idCounter
    ensures forall k :: 0 <= k < |Dispatch(d, hs, react).observers| && Dispatch(d, hs, react).observers[k].id < d.idCounter
              ==> Dispatch(d, hs, react).observers[k] in d.observers
    decreases |hs|
  {
    if hs != [] {
      var mid := Dispatch(d, hs[..|hs| - 1], react);
      DispatchPreserves(d, hs[..|hs| - 1], react);
      var ms := react(hs[|hs| - 1].callback);
      ApplyAllPreserves(mid, ms);
      var r := ApplyAll(mid, ms);
      forall k | 0 <= k < |r.observers| && r.observers[k].id < d.idCounter
        ensures r.observers[k] in d.observers
      {
        var j :| 0 <= j < |mid.observers| && mid.observers[j] == r.observers[k];
      }
    }
  }

  /** The snapshot law, for an emission that called `calls` and left `after`:
      every handler present when `emit` began is called exactly once, in insertion
      order, even if an earlier handler removed it meanwhile; of the handlers
      registered once the emission is over, the ones it called are exactly those
      with an id issued before it began, so a handler registered while it ran is
      not called by it (the next emission, which copies `after`, calls it). */
  lemma SnapshotLaw<H>(d: Data<H>, react: H -> seq<Mutation<H>>,
                       calls: seq<StoredHandler<H>>, after: Data<H>)
    requires Valid(d)
    requires calls == d.observers && after == Dispatch(d, d.observers, react)
    ensures forall i, j :: 0 <= i < j < |calls| ==> calls[i].id != calls[j].id
    ensures forall k :: 0 <= k < |after.observers| ==>
              (after.observers[k] in calls <==> after.observers[k].id < d.idCounter)
  {
    DispatchPreserves(d, d.observers, react);
    forall k | 0 <= k < |after.observers|
      ensures after.observers[k] in calls <==> after.observers[k].id < d.idCounter
    {
      if after.observers[k] in calls {
        var j :| 0 <= j < |calls| && calls[j] == after.observers[k];
      }
    }
  }

  /** A worked instance: handler `a` unregisters `b` and registers `c` while an
      emission runs. That emission still calls `b` and does not call `c`; the
      next emission calls `a` and `c` and not `b`. */
  lemma SnapshotExample(react: char -> seq<Mutation<char>>)
    requires react('a') == [RemoveM(1), AddM('c')] && react('b') == []
    ensures var d := Data(2, [StoredHandler(0, 'a'), StoredHandler(1, 'b')]);
      Dispatch(d, d.observers, react) == Data(3, [StoredHandler(0, 'a'), StoredHandler(2, 'c')])
  {
    var d := Data(2, [StoredHandler(0, 'a'), StoredHandler(1, 'b')]);
    var ms := react('a');
    var removed := Data(2, [StoredHandler(0, 'a')]);
    var added := Data(3, [StoredHandler(0, 'a'), StoredHandler(2, 'c')]);
    ExampleRemove();
    assert Add(removed, 'c').0 == added;
    assert ApplyAll(removed, ms[1..]) == added by {
      assert ms[1..] == [AddM('c')] && ms[1..][1..] == [];
    }
    assert ApplyAll(d, ms) == added;
    assert d.observers[..1] == [StoredHandler(0, 'a')] && d.observers[..1][..0] == [];
    assert Dispatch(d, d.observers[..1], react) == added;
  }

  lemma ExampleRemove()
    ensures Remove(Data(2, [StoredHandler(0, 'a'), StoredHandler(1, 'b')]), 1) == Data(2, [StoredHandler(0, 'a')])
  {
    var obs := [StoredHandler(0, 'a'), StoredHandler(1, 'b')];
    assert Valid(Data(2, obs));
    assert obs[1..] == [StoredHandler(1, 'b')] && obs[1..][1..] == [];
    assert Without(obs[1..], 1) == [];
    assert Without(obs, 1) == [StoredHandler(0, 'a')];
  }
}

=== FILE: idwidth.dfy ===
/**
  `HandlerID` is `size_t`, so `IDCounter++` wraps around after 2^64 registrations
  on a 64-bit target. The rest of the model uses an unbounded counter
  (`Registry.Add`); this module keeps the 64-bit counter as written, to exhibit
  what the wrap-around does to id uniqueness.
 */
module HandlerIdWidth {
  import opened Registry

  /** The number of `size_t` values on a 64-bit target. */
  const SizeRange: nat := 0x1_0000_0000_0000_0000

  /** `addHandler` with the counter held in a `size_t`. */
  function AddWrapping<H>(d: Data<H>, h: H): (r: (Data<H>, HandlerId))
    requires d.idCounter < SizeRange
    ensures r.0.idCounter < SizeRange
    ensures r.1 == d.idCounter
    ensures r.0.observers == d.observers + [StoredHandler(r.1, h)]
    ensures d.idCounter < SizeRange - 1 ==> r.0.idCounter == d.idCounter + 1
    ensures d.idCounter == SizeRange - 1 ==> r.0.idCounter == 0
  {
    (Data((d.idCounter + 1) % SizeRange, d.observers + [StoredHandler(d.idCounter, h)]), d.idCounter)
  }

  /** A registry in which every id below `SizeRange - 1` has been issued and all
      handlers but the first removed. Two more registrations wrap the counter and
      hand out id 0 again, while handler `x` still holds it; resetting the newest
      subscription (`z`, id 0) then unregisters `x` instead. */
  lemma WrappingReusesId()
    ensures var d := Data(SizeRange - 1, [StoredHandler(0, 'x')]);
      var (d1, id1) := AddWrapping(d, 'y');
      var (d2, id2) := AddWrapping(d1, 'z');
      && Valid(d)
      && id2 == 0 && id2 in Ids(d.observers)
      && !Valid(d2)
      && Remove(d2, id2).observers == [StoredHandler(SizeRange - 1, 'y'), StoredHandler(0, 'z')]
  {
    var d := Data(SizeRange - 1, [StoredHandler(0, 'x')]);
    var (d1, id1) := AddWrapping(d, 'y');
    var (d2, id2) := AddWrapping(d1, 'z');
    assert d.observers[0].id == 0;
    assert d2.observers == [StoredHandler(0, 'x'), StoredHandler(SizeRange - 1, 'y'), StoredHandler(0, 'z')];
    assert Find(d2.observers, 0).Some? && Find(d2.observers, 0).value == 0;
    assert d2.observers[1..] == [StoredHandler(SizeRange - 1, 'y'), StoredHandler(0, 'z')];
    assert d2.observers[..0] + d2.observers[1..] == d2.observers[1..];
    assert Remove(d2, 0).observers == d2.observers[1..];
    assert id2 in Ids(d.observers);
    assert d2.observers[0].id == d2.observers[2].id;
    assert !StrictlyIncreasing(d2.observers);
  }
}

=== FILE: observable.dfy ===
/**
  `ObservableValue<T>`: a value cell with an `onChange` event that is emitted,
  with the new value, every time the value is set. Handlers here only receive the
  value; what they do with it is the business of the code that registered them
  (the dependent value in module `Dependent` is one such client).
 */
module Observable {
  import opened Registry

  /** The value and the registry behind its `onChange` event. */
  datatype Observable<T, H> = Observable(value: T, onChange: Data<H>)

  /** One handler call made by an emission, with the argument it received. */
  datatype Delivery<H, T> = Delivery(to: StoredHandler<H>, arg: T)

  /** The constructor: the given initial value and an event with no handlers. */
  function Make<T, H>(v: T): (o: Observable<T, H>)
    ensures Get(o) == v
    ensures Valid(o.onChange) && Count(o.onChange) == 0 && o.onChange.idCounter == 0
  {
    Observable(v, Empty())
  }

  /** `get()`: a read that leaves the cell as it was. */
  function Get<T, H>(o: Observable<T, H>): (v: T)
    ensures o.(value := v) == o
  {
    o.value
  }

  /** The calls one emission of `x` makes, given the handler snapshot `hs`. */
  function Deliver<H, T>(hs: seq<StoredHandler<H>>, x: T): (ds: seq<Delivery<H, T>>)
    ensures |ds| == |hs|
    ensures forall i :: 0 <= i < |ds| ==> ds[i].to == hs[i] && ds[i].arg == x
  {
    if hs == [] then [] else [Delivery(hs[0], x)] + Deliver(hs[1..], x)
  }

  /** `set(x)`: store `x`, then emit the stored value on `onChange`. The emission
      is the one `Event::emit` performs (the call in the source reads `notify`). */
  function Set<T, H>(o: Observable<T, H>, x: T): (r: (Observable<T, H>, seq<Delivery<H, T>>))
    ensures Get(r.0) == x
    ensures r.0.onChange == o.onChange
    ensures |r.1| == Count(o.onChange)
    ensures forall i :: 0 <= i < |r.1| ==> r.1[i].to == o.onChange.observers[i]
    ensures forall i :: 0 <= i < |r.1| ==> r.1[i].arg == Get(r.0)
  {
    var o' := o.(value := x);
    (o', Deliver(o.onChange.observers, o'.value))
  }

  /** Register a handler on the value's `onChange` (`createObserver` or `connect`). */
  function Listen<T, H>(o: Observable<T, H>, h: H): (r: (Observable<T, H>, HandlerId))
    ensures Get(r.0) == Get(o)
    ensures Count(r.0.onChange) == Count(o.onChange) + 1
    ensures Ids(r.0.onChange.observers) == Ids(o.onChange.observers) + {r.1}
    ensures Valid(o.onChange) ==> Valid(r.0.onChange) && r.1 !in Ids(o.onChange.observers)
  {
    var (d, id) := Add(o.onChange, h);
    (o.(onChange := d), id)
  }

  /** Unregister a handler from the value's `onChange` (a subscription's `reset`). */
  function Unlisten<T, H>(o: Observable<T, H>, id: HandlerId): (r: Observable<T, H>)
    ensures Get(r) == Get(o)
    ensures Valid(o.onChange) ==> Valid(r.onChange) && Ids(r.onChange.observers) == Ids(o.onChange.observers) - {id}
  {
    o.(onChange := Remove(o.onChange, id))
  }

  // ---------------------------------------------------------------- lemmas

  /** `get()` after construction returns the initial value, and after `set(x)`
      it returns `x`, whatever was set before. */
  lemma GetAfterSet<T, H>(v: T, xs: seq<T>)
    requires xs != []
    ensures Get(SetAll(Make<T, H>(v), xs)) == xs[|xs| - 1]
    ensures Get(Make<T, H>(v)) == v
  {
    SetAllLast(Make<T, H>(v), xs);
  }

  /** Setting the value `get()` returns changes nothing in the cell, and `get()`
      after `set(x)` returns `x` whatever the cell held. */
  lemma SetGetRoundTrip<T, H>(o: Observable<T, H>, x: T)
    ensures Set(o, Get(o)).0 == o
    ensures Get(Set(o, x).0) == x
  {
  }

  /** The value after a run of `set` calls. */
  function SetAll<T, H>(o: Observable<T, H>, xs: seq<T>): Observable<T, H>
    decreases |xs|
  {
    if xs == [] then o else SetAll(Set(o, xs[0]).0, xs[1..])
  }

  lemma {:induction false} SetAllLast<T, H>(o: Observable<T, H>, xs: seq<T>)
    requires xs != []
    ensures Get(SetAll(o, xs)) == xs[|xs| - 1]
    ensures SetAll(o, xs).onChange == o.onChange
    decreases |xs|
  {
    if |xs| > 1 {
      SetAllLast(Set(o, xs[0]).0, xs[1..]);
    }
  }
}

=== FILE: registry.dfy ===
/**
  The shared state behind one `Event`: an id counter that only ever grows and the
  insertion-ordered list of `(id, callback)` pairs. Callbacks are opaque tokens of
  type `H`; the mutex that guards the record is not modelled (every operation here
  is one atomic step).
 */
module Registry {
  import opened Wrappers

  type HandlerId = nat

  /** One registered handler: the id it was given and its callback. */
  datatype StoredHandler<H> = StoredHandler(id: HandlerId, callback: H)

  /** `Event::Data`: the next id to hand out and the handlers in insertion order. */
  datatype Data<H> = Data(idCounter: HandlerId, observers: seq<StoredHandler<H>>)

  /** The registry mutations a handler (or any other client) can perform. */
  datatype Mutation<H> = AddM(h: H) | RemoveM(id: HandlerId) | ClearM

  /** The set of ids currently registered. */
  function Ids<H>(obs: seq<StoredHandler<H>>): set<HandlerId> {
    set i | 0 <= i < |obs| :: obs[i].id
  }

  predicate IdsBelow<H>(obs: seq<StoredHandler<H>>, bound: HandlerId) {
    forall i :: 0 <= i < |obs| ==> obs[i].id < bound
  }

  predicate StrictlyIncreasing<H>(obs: seq<StoredHandler<H>>) {
    forall i, j :: 0 <= i < j < |obs| ==> obs[i].id < obs[j].id
  }

  /** The registry invariant: every stored id was issued by the counter, and ids
      appear in strictly increasing order (hence at most once). */
  predicate Valid<H>(d: Data<H>) {
    IdsBelow(d.observers, d.idCounter) && StrictlyIncreasing(d.observers)
  }

  /** The registry a freshly constructed `Event` owns. */
  function Empty<H>(): (d: Data<H>)
    ensures Valid(d)
    ensures Count(d) == 0 && d.idCounter == 0
  {
    Data(0, [])
  }

  /** `observerCount()`: the number of stored handlers. On a valid registry no id
      is stored twice, so it is also the number of distinct registered ids. */
  function Count<H>(d: Data<H>): (n: nat)
    ensures n == |d.observers|
    ensures Valid(d) ==> n == |Ids(d.observers)|
  {
    ValidCount(d);
    |d.observers|
  }

  /** `addHandler`: append `{IDCounter, h}` and return the old counter value. */
  function Add<H>(d: Data<H>, h: H): (r: (Data<H>, HandlerId))
    ensures r.1 == d.idCounter && r.0.idCounter == d.idCounter + 1
    ensures |r.0.observers| == |d.observers| + 1
    ensures r.0.observers[..|d.observers|] == d.observers
    ensures r.0.observers[|d.observers|] == StoredHandler(r.1, h)
    ensures Ids(r.0.observers) == Ids(d.observers) + {r.1}
    ensures Valid(d) ==> Valid(r.0) && r.1 !in Ids(d.observers)
  {
    var obs := d.observers + [StoredHandler(d.idCounter, h)];
    assert obs[..|d.observers|] == d.observers;
    assert Ids(obs) == Ids(d.observers) + {d.idCounter} by {
      forall x | x in Ids(obs) ensures x in Ids(d.observers) + {d.idCounter} {
        var i :| 0 <= i < |obs| && obs[i].id == x;
        if i < |d.observers| { assert d.observers[i].id == x; }
      }
      forall x | x in Ids(d.observers) ensures x in Ids(obs) {
        var i :| 0 <= i < |d.observers| && d.observers[i].id == x;
        assert obs[i].id == x;
      }
      assert obs[|d.observers|].id == d.idCounter;
    }
    (Data(d.idCounter + 1, obs), d.idCounter)
  }

  /** `std::find_if` over the handler list: the first position holding `id`. */
  function Find<H>(obs: seq<StoredHandler<H>>, id: HandlerId): (r: Option<nat>)
    ensures r.None? <==> id !in Ids(obs)
    ensures r.Some? ==> r.value < |obs| && obs[r.value].id == id
    ensures r.Some? ==> forall k :: 0 <= k < r.value ==> obs[k].id != id
  {
    if |obs| == 0 then None
    else if obs[0].id == id then Some(0)
    else
      match Find(obs[1..], id)
      case None =>
        IdsCons(obs);
        None
      case Some(i) =>
        IdsCons(obs);
        Some(i + 1)
  }

  /** The independent description of removal: drop every entry carrying `id`,
      keeping all others in their relative order. */
  function Without<H>(obs: seq<StoredHandler<H>>, id: HandlerId): seq<StoredHandler<H>> {
    if obs == [] then []
    else (if obs[0].id == id then [] else [obs[0]]) + Without(obs[1..], id)
  }

  /** `Event::Observer::reset` on a live registry: erase the first entry whose
      id matches, if any; the counter is untouched. */
  function Remove<H>(d: Data<H>, id: HandlerId): (r: Data<H>)
    ensures r.idCounter == d.idCounter
    ensures id !in Ids(d.observers) ==> r == d
    ensures id in Ids(d.observers) ==> |r.observers| == |d.observers| - 1
    ensures Valid(d) ==> Valid(r) && r.observers == Without(d.observers, id)
    ensures Valid(d) ==> Ids(r.observers) == Ids(d.observers) - {id}
  {
    match Find(d.observers, id)
    case None =>
      WithoutAbsent(d.observers, id);
      d
    case Some(i) =>
      EraseFacts(d, id, i);
      Data(d.idCounter, d.observers[..i] + d.observers[i + 1..])
  }

  /** Removal only drops entries: whatever is left was stored before. */
  lemma RemoveDropsOnly<H>(d: Data<H>, id: HandlerId)
    ensures forall x :: x in Remove(d, id).observers ==> x in d.observers
  {
    match Find(d.observers, id)
    case None =>
    case Some(i) =>
      var obs := d.observers;
      assert Remove(d, id).observers == obs[..i] + obs[i + 1..];
      forall x | x in obs[..i] + obs[i + 1..] ensures x in obs {
        if x in obs[..i] {
          var j :| 0 <= j < i && obs[..i][j] == x;
          assert obs[j] == x;
        } else {
          var j :| 0 <= j < |obs[i + 1..]| && obs[i + 1..][j] == x;
          assert obs[i + 1 + j] == x;
        }
      }
  }

  /** What `Remove` needs about erasing position `i` of a valid registry. */
  lemma EraseFacts<H>(d: Data<H>, id: HandlerId, i: nat)
    requires i < |d.observers| && d.observers[i].id == id
    ensures var erased := d.observers[..i] + d.observers[i + 1..];
      Valid(d) ==>
        && erased == Without(d.observers, id)
        && Valid(Data(d.idCounter, erased))
        && Ids(erased) == Ids(d.observers) - {id}
  {
    if Valid(d) {
      EraseIsWithout(d.observers, id, i);
      WithoutValid(d.observers, id, d.idCounter);
      WithoutIds(d.observers, id);
    }
  }

  /** `clearObservers`: drop every handler, keep the counter. */
  function Clear<H>(d: Data<H>): (r: Data<H>)
    ensures Count(r) == 0 && Ids(r.observers) == {}
    ensures r.idCounter == d.idCounter
    ensures Valid(r)
  {
    Data(d.idCounter, [])
  }

  /** Apply one mutation to a registry. */
  function Apply<H>(d: Data<H>, m: Mutation<H>): Data<H> {
    match m
    case AddM(h) => Add(d, h).0
    case RemoveM(id) => Remove(d, id)
    case ClearM => Clear(d)
  }

  /** Apply mutations left to right. */
  function ApplyAll<H>(d: Data<H>, ms: seq<Mutation<H>>): Data<H>
    decreases |ms|
  {
    if ms == [] then d else ApplyAll(Apply(d, ms[0]), ms[1..])
  }

  // ---------------------------------------------------------------- lemmas

  /** Removing an absent id leaves the list alone. */
  lemma {:induction false} WithoutAbsent<H>(obs: seq<StoredHandler<H>>, id: HandlerId)
    requires id !in Ids(obs)
    ensures Without(obs, id) == obs
    decreases |obs|
  {
    if obs != [] {
      IdsCons(obs);
      WithoutAbsent(obs[1..], id);
      assert obs == [obs[0]] + obs[1..];
    }
  }

  /** On a list with strictly increasing ids, erasing the first match is the
      same as filtering every match out. */
  lemma {:induction false} EraseIsWithout<H>(obs: seq<StoredHandler<H>>, id: HandlerId, i: nat)
    requires StrictlyIncreasing(obs)
    requires i < |obs| && obs[i].id == id
    ensures obs[..i] + obs[i + 1..] == Without(obs, id)
    decreases |obs|
  {
    if i == 0 {
      forall k | 0 <= k < |obs[1..]| ensures obs[1..][k].id != id {
        assert obs[1..][k] == obs[k + 1];
      }
      WithoutAbsent(obs[1..], id);
      assert obs[..0] + obs[1..] == obs[1..];
    } else {
      assert obs[0].id != id;
      var tail := obs[1..];
      EraseIsWithout(tail, id, i - 1);
      assert tail[..i - 1] + tail[i..] == Without(tail, id);
      assert obs[..i] + obs[i + 1..] == [obs[0]] + (tail[..i - 1] + tail[i..]);
    }
  }

  /** Filtering preserves the registry invariant. */
  lemma {:induction false} WithoutValid<H>(obs: seq<StoredHandler<H>>, id: HandlerId, bound: HandlerId)
    requires IdsBelow(obs, bound) && StrictlyIncreasing(obs)
    ensures IdsBelow(Without(obs, id), bound) && StrictlyIncreasing(Without(obs, id))
    ensures forall k :: 0 <= k < |Without(obs, id)| ==> Without(obs, id)[k] in obs
    ensures obs != [] && Without(obs, id) != [] ==> obs[0].id <= Without(obs, id)[0].id
    decreases |obs|
  {
    if obs != [] {
      var rest := Without(obs[1..], id);
      WithoutValid(obs[1..], id, bound);
      forall k | 0 <= k < |rest| ensures obs[0].id < rest[k].id {
        assert rest[k] in obs[1..];
      }
    }
  }

  /** Filtering removes exactly the filtered id from the id set. */
  lemma {:induction false} WithoutIds<H>(obs: seq<StoredHandler<H>>, id: HandlerId)
    ensures Ids(Without(obs, id)) == Ids(obs) - {id}
    decreases |obs|
  {
    if obs != [] {
      WithoutIds(obs[1..], id);
      IdsCons(obs);
      var head: seq<StoredHandler<H>> := if obs[0].id == id then [] else [obs[0]];
      IdsConcat(head, Without(obs[1..], id));
    }
  }

  /** One mutation keeps the invariant, never lowers the counter, and every
      entry it leaves with an id below the old counter was already there. */
  lemma ApplyPreserves<H>(d: Data<H>, m: Mutation<H>)
    requires Valid(d)
    ensures Valid(Apply(d, m))
    ensures Apply(d, m).idCounter >= d.idCounter
    ensures forall k :: 0 <= k < |Apply(d, m).observers| && Apply(d, m).observers[k].id < d.idCounter
              ==> Apply(d, m).observers[k] in d.observers
  {
    match m
    case AddM(h) =>
      var r := Add(d, h).0;
      forall k | 0 <= k < |r.observers| && r.observers[k].id < d.idCounter
        ensures r.observers[k] in d.observers
      {
        assert r.observers[k] == r.observers[..|d.observers|][k];
      }
    case RemoveM(id) =>
      WithoutValid(d.observers, id, d.idCounter);
    case ClearM =>
  }

  /** Any sequence of adds, removals and clears keeps the invariant, never lowers
      the counter, and introduces no entry with an id issued before it started. */
  lemma {:induction false} ApplyAllPreserves<H>(d: Data<H>, ms: seq<Mutation<H>>)
    requires Valid(d)
    ensures Valid(ApplyAll(d, ms))
    ensures ApplyAll(d, ms).idCounter >= d.idCounter
    ensures forall k :: 0 <= k < |ApplyAll(d, ms).observers| && ApplyAll(d, ms).observers[k].id < d.idCounter
              ==> ApplyAll(d, ms).observers[k] in d.observers
    decreases |ms|
  {
    if ms != [] {
      var d1 := Apply(d, ms[0]);
      ApplyPreserves(d, ms[0]);
      ApplyAllPreserves(d1, ms[1..]);
      var r := ApplyAll(d1, ms[1..]);
      forall k | 0 <= k < |r.observers| && r.observers[k].id < d.idCounter
        ensures r.observers[k] in d.observers
      {
        assert r.observers[k] in d1.observers;
        var j :| 0 <= j < |d1.observers| && d1.observers[j] == r.observers[k];
      }
    }
  }

  /** Ids are never reused: an id that was issued and is no longer registered
      stays unregistered whatever adds, removals and clears follow. */
  lemma {:induction false} RemovedStaysRemoved<H>(d: Data<H>, ms: seq<Mutation<H>>, id: HandlerId)
    requires Valid(d)
    requires id < d.idCounter && id !in Ids(d.observers)
    ensures id !in Ids(ApplyAll(d, ms).observers)
  {
    ApplyAllPreserves(d, ms);
    var r := ApplyAll(d, ms);
    forall k | 0 <= k < |r.observers| ensures r.observers[k].id != id {
      if r.observers[k].id < d.idCounter {
        var j :| 0 <= j < |d.observers| && d.observers[j] == r.observers[k];
        assert d.observers[j].id in Ids(d.observers);
      }
    }
  }

  /** Registering handlers one after another. */
  function AddAll<H>(d: Data<H>, hs: seq<H>): Data<H>
    decreases |hs|
  {
    if hs == [] then d else AddAll(Add(d, hs[0]).0, hs[1..])
  }

  /** `n` registrations keep every earlier entry in front and append `n` entries,
      in order, under the `n` consecutive ids the counter hands out; the result
      is valid, so these ids are distinct from each other and from every earlier one. */
  lemma {:induction false} AddAllDistinct<H>(d: Data<H>, hs: seq<H>)
    requires Valid(d)
    ensures Valid(AddAll(d, hs))
    ensures |AddAll(d, hs).observers| == |d.observers| + |hs|
    ensures AddAll(d, hs).idCounter == d.idCounter + |hs|
    ensures AddAll(d, hs).observers[..|d.observers|] == d.observers
    ensures forall k :: 0 <= k < |hs| ==>
              AddAll(d, hs).observers[|d.observers| + k] == StoredHandler(d.idCounter + k, hs[k])
    decreases |hs|
  {
    if hs != [] {
      var d1 := Add(d, hs[0]).0;
      AddAllDistinct(d1, hs[1..]);
      var r := AddAll(d, hs);
      var n := |d.observers|;
      assert r.observers[..n] == r.observers[..n + 1][..n];
      forall k | 0 <= k < |hs|
        ensures r.observers[n + k] == StoredHandler(d.idCounter + k, hs[k])
      {
        if k == 0 {
          assert r.observers[n] == r.observers[..n + 1][n];
        } else {
          assert hs[1..][k - 1] == hs[k];
        }
      }
    }
  }

  /** On a valid registry there are as many handlers as distinct ids. */
  lemma ValidCount<H>(d: Data<H>)
    ensures Valid(d) ==> |d.observers| == |Ids(d.observers)|
  {
    if Valid(d) {
      DistinctCount(d.observers);
    }
  }

  /** Strictly increasing ids are pairwise distinct, so there are as many ids as
      entries. */
  lemma {:induction false} DistinctCount<H>(obs: seq<StoredHandler<H>>)
    requires StrictlyIncreasing(obs)
    ensures |Ids(obs)| == |obs|
    decreases |obs|
  {
    if obs != [] {
      IdsCons(obs);
      DistinctCount(obs[1..]);
      forall i | 0 <= i < |obs[1..]| ensures obs[1..][i].id != obs[0].id {
        assert obs[1..][i] == obs[i + 1];
      }
      assert obs[0].id !in Ids(obs[1..]);
    }
  }

  lemma IdsCons<H>(obs: seq<StoredHandler<H>>)
    requires obs != []
    ensures Ids(obs) == {obs[0].id} + Ids(obs[1..])
  {
    assert obs == [obs[0]] + obs[1..];
    IdsConcat([obs[0]], obs[1..]);
  }

  lemma IdsConcat<H>(a: seq<StoredHandler<H>>, b: seq<StoredHandler<H>>)
    ensures Ids(a + b) == Ids(a) + Ids(b)
  {
    forall x | x in Ids(a + b) ensures x in Ids(a) + Ids(b) {
      var i :| 0 <= i < |a + b| && (a + b)[i].id == x;
      if i < |a| { assert a[i].id == x; } else { assert b[i - |a|].id == x; }
    }
    forall x | x in Ids(a) ensures x in Ids(a + b) {
      var i :| 0 <= i < |a| && a[i].id == x;
      assert (a + b)[i].id == x;
    }
    forall x | x in Ids(b) ensures x in Ids(a + b) {
      var i :| 0 <= i < |b| && b[i].id == x;
      assert (a + b)[|a| + i].id == x;
    }
  }
}

=== FILE: subscriptions.dfy ===
/**
  `Event` handles, the subscriptions they hand out (`Event::Observer`) and the
  type-erased subscription holder (`lars::Observer`).

  Registries live in a `World` keyed by reference. An `Event` value is a
  reference; copies of an `Event` share it. A subscription holds a weak
  reference: a reference that may no longer be in the world, because the last
  `Event` handle owning the registry has gone.
 */
module Subscriptions {
  import opened Wrappers
  import opened Registry
  import Emission

  type Ref = nat

  /** Every registry still alive, by reference, and the next unused reference. */
  datatype World<H> = World(regs: map<Ref, Data<H>>, next: Ref)

  /** `Event::Observer`: a weak reference to a registry and the id it owns.
      `target == None` is an empty weak pointer. */
  datatype Subscription = Subscription(target: Option<Ref>, id: HandlerId)

  /** `lars::Observer`: a `unique_ptr` to some concrete subscription, or nothing. */
  datatype ErasedObserver = ErasedObserver(data: Option<Subscription>)

  predicate WorldValid<H>(w: World<H>) {
    forall r :: r in w.regs ==> r < w.next && Valid(w.regs[r])
  }

  /** `data.lock()` succeeds: the subscription points at a registry still alive. */
  predicate Live<H>(w: World<H>, s: Subscription) {
    s.target.Some? && s.target.value in w.regs
  }

  /** The subscription's id was handed out by its registry's counter. Every
      subscription `createObserver` returns has this property, and keeps it. */
  predicate Issued<H>(w: World<H>, s: Subscription) {
    Live(w, s) ==> s.id < w.regs[s.target.value].idCounter
  }

  /** `Event()`: a new registry under a reference never used before. */
  function NewEvent<H>(w: World<H>): (r: (World<H>, Ref))
    ensures WorldValid(w) ==> r.1 !in w.regs && WorldValid(r.0)
    ensures r.0.regs == w.regs[r.1 := Empty()]
    ensures r.1 == w.next && r.0.next == w.next + 1
  {
    (World(w.regs[w.next := Empty()], w.next + 1), w.next)
  }

  /** A subscription whose registry has died stays expired when new events are
      created: a new event never takes over a reference used before. */
  lemma ExpiredStaysExpired<H>(w: World<H>, s: Subscription)
    requires s.target.Some? && s.target.value < w.next && !Live(w, s)
    ensures !Live(NewEvent(w).0, s)
  {
  }

  /** The last `Event` handle for `e` is gone: its registry dies. */
  function DropEvent<H>(w: World<H>, e: Ref): (r: World<H>)
    ensures e !in r.regs
    ensures forall o :: o in w.regs && o != e ==> o in r.regs && r.regs[o] == w.regs[o]
    ensures WorldValid(w) ==> WorldValid(r)
  {
    World(w.regs - {e}, w.next)
  }

  /** `createObserver`: register `h` and return a subscription owning its id. */
  function CreateObserver<H>(w: World<H>, e: Ref, h: H): (r: (World<H>, Subscription))
    requires e in w.regs
    ensures r.1.target == Some(e) && r.1.id == w.regs[e].idCounter
    ensures r.0.regs.Keys == w.regs.Keys && e in r.0.regs
    ensures r.0.regs[e].observers == w.regs[e].observers + [StoredHandler(r.1.id, h)]
    ensures forall o :: o in w.regs && o != e ==> r.0.regs[o] == w.regs[o]
    ensures WorldValid(w) ==> WorldValid(r.0) && r.1.id !in Ids(w.regs[e].observers)
    ensures Issued(r.0, r.1)
  {
    var (d, id) := Add(w.regs[e], h);
    (w.(regs := w.regs[e := d]), Subscription(Some(e), id))
  }

  /** `connect`: register `h` with no subscription to remove it. */
  function Connect<H>(w: World<H>, e: Ref, h: H): (r: World<H>)
    requires e in w.regs
    ensures r == CreateObserver(w, e, h).0
  {
    w.(regs := w.regs[e := Add(w.regs[e], h).0])
  }

  /** `clearObservers`: drop every handler of `e`, keep its counter. */
  function ClearObservers<H>(w: World<H>, e: Ref): (r: World<H>)
    requires e in w.regs
    ensures e in r.regs && ObserverCount(r, e) == 0
    ensures r.regs[e].idCounter == w.regs[e].idCounter
    ensures forall o :: o in w.regs && o != e ==> o in r.regs && r.regs[o] == w.regs[o]
    ensures WorldValid(w) ==> WorldValid(r)
  {
    w.(regs := w.regs[e := Clear(w.regs[e])])
  }

  /** `observerCount`. */
  function ObserverCount<H>(w: World<H>, e: Ref): (n: nat)
    requires e in w.regs
    ensures n == |w.regs[e].observers|
    ensures Valid(w.regs[e]) ==> n == |Ids(w.regs[e].observers)|
  {
    Count(w.regs[e])
  }

  /** `emit` on the event `e`; `react` says what each handler does to `e`. */
  method EmitEvent<H>(w: World<H>, e: Ref, react: H -> seq<Mutation<H>>)
    returns (calls: seq<StoredHandler<H>>, w': World<H>)
    requires e in w.regs
    ensures calls == w.regs[e].observers && |calls| == ObserverCount(w, e)
    ensures w'.regs == w.regs[e := Emission.Dispatch(w.regs[e], w.regs[e].observers, react)]
    ensures w'.next == w.next
    ensures WorldValid(w) ==> WorldValid(w')
  {
    var after;
    calls, after := Emission.Emit(w.regs[e], react);
    w' := w.(regs := w.regs[e := after]);
  }

  /** The default-constructed `Event::Observer` (its id is left uninitialised
      by the source and plays no part, since the weak pointer is empty). */
  function Unbound(): (s: Subscription)
    ensures s.target == None
  {
    Subscription(None, 0)
  }

  /** `Event::Observer::reset` (also its destructor): remove the owned id if the
      registry is alive, then empty the weak reference. */
  function Reset<H>(w: World<H>, s: Subscription): (r: (World<H>, Subscription))
    ensures r.1.target == None && r.1.id == s.id
    ensures r.0.regs.Keys == w.regs.Keys && r.0.next == w.next
    ensures !Live(w, s) ==> r.0 == w
    ensures Live(w, s) && s.id !in Ids(w.regs[s.target.value].observers) ==> r.0 == w
    ensures Live(w, s) ==>
      var t := s.target.value;
      && (forall o :: o in w.regs && o != t ==> r.0.regs[o] == w.regs[o])
      && r.0.regs[t].idCounter == w.regs[t].idCounter
      && (Valid(w.regs[t]) ==> r.0.regs[t].observers == Without(w.regs[t].observers, s.id))
      && (Valid(w.regs[t]) ==> Ids(r.0.regs[t].observers) == Ids(w.regs[t].observers) - {s.id})
    ensures WorldValid(w) ==> WorldValid(r.0)
  {
    if Live(w, s) then
      var t := s.target.value;
      (w.(regs := w.regs[t := Remove(w.regs[t], s.id)]), s.(target := None))
    else
      (w, s.(target := None))
  }

  /** Resetting a sequence of subscriptions one after the other. */
  function ResetAll<H>(w: World<H>, subs: seq<Subscription>): World<H>
    decreases |subs|
  {
    if subs == [] then w else ResetAll(Reset(w, subs[0]).0, subs[1..])
  }

  /** The move constructor: the new subscription takes the weak reference and the
      id; the moved-from one keeps the id but its weak reference is empty. */
  function Move(s: Subscription): (r: (Subscription, Subscription))
    ensures r.0 == s && r.1.target == None
  {
    (s, s.(target := None))
  }

  /** `Event::Observer::observe`: `*this = event.createObserver(handler)` through the
      defaulted move assignment, after which the temporary is destroyed. The old
      weak reference is overwritten, not reset. */
  function Observe<H>(w: World<H>, s: Subscription, e: Ref, h: H): (r: (World<H>, Subscription))
    requires e in w.regs
    ensures r.1.target == Some(e) && Issued(r.0, r.1)
    ensures r.0 == CreateObserver(w, e, h).0 && r.1 == CreateObserver(w, e, h).1
    ensures WorldValid(w) ==> WorldValid(r.0)
  {
    var (w1, created) := CreateObserver(w, e, h);
    var (moved, temp) := Move(created);
    var (w2, _) := Reset(w1, temp);
    (w2, moved)
  }

  /** `lars::Observer::operator bool`. */
  function IsBound(o: ErasedObserver): (b: bool)
    ensures b <==> o.data != None
  {
    o.data.Some?
  }

  /** The default-constructed `lars::Observer`. */
  function ErasedEmpty(): (o: ErasedObserver)
    ensures !IsBound(o)
  {
    ErasedObserver(None)
  }

  /** Destroying what a `lars::Observer` holds: the wrapped subscription's
      destructor resets it. */
  function Release<H>(w: World<H>, o: ErasedObserver): (r: World<H>)
    ensures o.data.None? ==> r == w
    ensures o.data.Some? ==> r == Reset(w, o.data.value).0
  {
    match o.data
    case None => w
    case Some(s) => Reset(w, s).0
  }

  /** The converting constructor from an rvalue `Event::Observer`: it is moved
      into a new heap object, and the argument is left empty. */
  function Wrap(s: Subscription): (r: (ErasedObserver, Subscription))
    ensures IsBound(r.0) && r.0.data.value == s
    ensures r.1.target == None
  {
    var (moved, rest) := Move(s);
    (ErasedObserver(Some(moved)), rest)
  }

  /** `lars::Observer::reset`: `data.reset()`. */
  function ErasedReset<H>(w: World<H>, o: ErasedObserver): (r: (World<H>, ErasedObserver))
    ensures !IsBound(r.1)
  {
    (Release(w, o), ErasedObserver(None))
  }

  /** Assigning an rvalue `Event::Observer`: `data.reset(new L(std::move(l)))`
      stores the new object, then deletes the old one. */
  function ErasedAssign<H>(w: World<H>, o: ErasedObserver, s: Subscription)
    : (r: (World<H>, ErasedObserver, Subscription))
    ensures IsBound(r.1) && r.1.data.value == s && r.2.target == None
  {
    var (wrapped, rest) := Wrap(s);
    (Release(w, o), wrapped, rest)
  }

  /** `lars::Observer::observe`: register the new handler first, then delete the
      previously held subscription, which unregisters it. */
  function ErasedObserve<H>(w: World<H>, o: ErasedObserver, e: Ref, h: H): (r: (World<H>, ErasedObserver))
    requires e in w.regs
    ensures IsBound(r.1) && r.1.data.value.target == Some(e)
    ensures WorldValid(w) ==> WorldValid(r.0)
  {
    var (w1, created) := CreateObserver(w, e, h);
    var (moved, temp) := Move(created);
    var (w2, _) := Reset(w1, temp);
    (Release(w2, o), ErasedObserver(Some(moved)))
  }

  /** The defaulted move assignment of `lars::Observer`: the `unique_ptr` move
      deletes what the destination held and leaves the source empty. */
  function ErasedMoveAssign<H>(w: World<H>, dst: ErasedObserver, src: ErasedObserver)
    : (r: (World<H>, ErasedObserver, ErasedObserver))
    ensures r.1 == src && !IsBound(r.2)
  {
    (Release(w, dst), src, ErasedObserver(None))
  }

  // ---------------------------------------------------------------- lemmas

  /** `reset` always empties the subscription, so resetting again changes nothing. */
  lemma ResetIdempotent<H>(w: World<H>, s: Subscription)
    ensures var (w1, s1) := Reset(w, s); Reset(w1, s1) == (w1, s1)
  {
  }

  /** Releasing one subscription never disturbs another one's handler. */
  lemma ResetKeepsOthers<H>(w: World<H>, s: Subscription, other: Subscription)
    requires WorldValid(w) && Live(w, other)
    requires other.id in Ids(w.regs[other.target.value].observers)
    requires s.target != other.target || s.id != other.id
    ensures var w1 := Reset(w, s).0;
      Live(w1, other) && other.id in Ids(w1.regs[other.target.value].observers)
  {
  }

  /** The moved-from subscription owns nothing: destroying it (as happens to the
      temporary in `observe`) leaves every registry as it was. */
  lemma MovedFromIsInert<H>(w: World<H>, s: Subscription)
    ensures Reset(w, Move(s).1).0 == w
  {
  }

  /** `Event::Observer::observe` does not unregister the handler the subscription
      owned before: it stays registered, and no subscription owns it any more. */
  lemma ObserveKeepsPrevious<H>(w: World<H>, s: Subscription, e: Ref, h: H)
    requires WorldValid(w) && e in w.regs && Live(w, s)
    requires s.id in Ids(w.regs[s.target.value].observers)
    ensures var (w1, s1) := Observe(w, s, e, h);
      && s.target.value in w1.regs
      && s.id in Ids(w1.regs[s.target.value].observers)
      && (s.target == Some(e) ==> s1.id != s.id)
      && s1.id in Ids(w1.regs[e].observers)
  {
    var (w1, created) := CreateObserver(w, e, h);
    var t := s.target.value;
    assert Ids(w1.regs[e].observers) == Ids(w.regs[e].observers) + {created.id} by {
      IdsConcat(w.regs[e].observers, [StoredHandler(created.id, h)]);
    }
  }

  /** `lars::Observer::observe` registers the new handler and unregisters the one
      it held before. */
  lemma ErasedObserveReplaces<H>(w: World<H>, o: ErasedObserver, e: Ref, h: H)
    requires WorldValid(w) && e in w.regs
    requires o.data.Some? && Live(w, o.data.value) && Issued(w, o.data.value)
    ensures var (w1, o1) := ErasedObserve(w, o, e, h);
      var prev := o.data.value;
      && prev.target.value in w1.regs
      && prev.id !in Ids(w1.regs[prev.target.value].observers)
      && o1.data.value.id in Ids(w1.regs[e].observers)
      && o1.data.value.id !in Ids(w.regs[e].observers)
  {
    var (w1, created) := CreateObserver(w, e, h);
    var s := o.data.value;
    var t := s.target.value;
    assert Ids(w1.regs[e].observers) == Ids(w.regs[e].observers) + {created.id} by {
      IdsConcat(w.regs[e].observers, [StoredHandler(created.id, h)]);
    }
    assert s.id < w1.regs[t].idCounter;
  }

  /** Whichever way a `lars::Observer` lets go of the subscription it holds
      (`reset`, assigning another subscription, move assignment from another
      holder), the held handler is unregistered and no other registry changes. */
  lemma ErasedReleaseUnregisters<H>(w: World<H>, o: ErasedObserver, s: Subscription, src: ErasedObserver)
    requires WorldValid(w) && o.data.Some? && Live(w, o.data.value)
    ensures var held := o.data.value;
      var t := held.target.value;
      && ErasedReset(w, o).0 == ErasedAssign(w, o, s).0 == ErasedMoveAssign(w, o, src).0
      && t in ErasedReset(w, o).0.regs
      && Ids(ErasedReset(w, o).0.regs[t].observers) == Ids(w.regs[t].observers) - {held.id}
      && (forall r :: r in w.regs && r != t ==> ErasedReset(w, o).0.regs[r] == w.regs[r])
  {
  }

  /** Resetting subscriptions none of which owns `id` on `e` keeps `id` registered. */
  lemma {:induction false} ResetAllKeeps<H>(w: World<H>, subs: seq<Subscription>, e: Ref, id: HandlerId)
    requires WorldValid(w) && e in w.regs && id in Ids(w.regs[e].observers)
    requires forall i :: 0 <= i < |subs| && subs[i].target == Some(e) ==> subs[i].id != id
    ensures e in ResetAll(w, subs).regs && id in Ids(ResetAll(w, subs).regs[e].observers)
    decreases |subs|
  {
    if subs != [] {
      var w1 := Reset(w, subs[0]).0;
      forall i | 0 <= i < |subs[1..]| && subs[1..][i].target == Some(e)
        ensures subs[1..][i].id != id
      {
        assert subs[1..][i] == subs[i + 1];
      }
      ResetAllKeeps(w1, subs[1..], e, id);
    }
  }

  /** A handler added by `connect` is owned by no subscription: however many of
      the subscriptions handed out before are reset, it stays registered, and
      only `clearObservers` removes it. */
  lemma ConnectOnlyClearRemoves<H>(w: World<H>, e: Ref, h: H, subs: seq<Subscription>)
    requires WorldValid(w) && e in w.regs
    requires forall i :: 0 <= i < |subs| ==> Issued(w, subs[i])
    ensures var w1 := Connect(w, e, h);
      var id := w.regs[e].idCounter;
      && e in ResetAll(w1, subs).regs
      && id in Ids(ResetAll(w1, subs).regs[e].observers)
      && id !in Ids(ClearObservers(w1, e).regs[e].observers)
  {
    var w1 := Connect(w, e, h);
    var id := w.regs[e].idCounter;
    assert Ids(w1.regs[e].observers) == Ids(w.regs[e].observers) + {id} by {
      IdsConcat(w.regs[e].observers, [StoredHandler(id, h)]);
    }
    forall i | 0 <= i < |subs| && subs[i].target == Some(e) ensures subs[i].id != id {
      assert Issued(w, subs[i]);
    }
    ResetAllKeeps(w1, subs, e, id);
  }
}

=== FILE: wrappers.dfy ===
/** An optional value, used throughout the model. */
module Wrappers {

  /** `None` stands for an empty `std::weak_ptr`, an empty `std::unique_ptr`,
      or a search that found nothing. */
  datatype Option<+T> = None | Some(value: T)
}
